=== FILE: README.md ===
# Group filters of the attendance back end

This project is a Dafny model of the group controller of a school attendance
back end. A **group** is a saved filter over students' roll outcomes. Its rule
has four parts:

- a window of `number_of_weeks` weeks;
- a comma-separated list `roll_states` of outcome labels ("absent,late");
- an `incidents` threshold;
- a comparison operator `ltmt`.

Running the filters clears the group-student (membership) table. It then goes
through the groups in table order. For each group it evaluates the rule with
one aggregation query over the student roll-state table, joined to the roll
table (`getStudentRolls`). It writes one membership row per result row. Last,
it records `run_at` and `student_count` on the group. The controller also
creates, updates and removes groups, and lists a group's students.

The model has three modules:

- `Rules` (`rules.dfy`) is the aggregation as pure functions:
  - the JavaScript `split(",")` of `roll_states`;
  - the inner join with the roll table;
  - the `WHERE` clause on state and `completed_at`;
  - `GROUP BY student_id`, `COUNT`, and `HAVING count <ltmt> incidents`.

  `StudentRollsSpec` states what the result means. Further lemmas cover the
  threshold and window boundaries.
- `Groups` (`groups.dfy`) holds the group and membership records, and a
  specification of what a run leaves in the two tables. It has two functions:
  - `Rebuilt` for the membership table;
  - `RefreshedAll` for the group table.

  The lemmas about them hold for any rule evaluation (`Evaluator`):
  - where membership rows come from (`RebuiltRowFromRun`, `RebuiltHasEveryRow`,
    `NoMembersOfAbsentGroup`);
  - the student count (`StudentCountMatchesMembership`);
  - a re-run whose evaluation returns the same rows (`RerunIdempotent`).

  Further lemmas are about the rule evaluated over given roll tables at a given
  time (`Evaluate`, `EvaluatorAt`):
  - the window boundary (`EvaluateWindowBoundary`);
  - stability between two run times (`EvaluateStable`, `ClockMoveDropsStudent`);
  - a re-run over unchanged tables (`RerunUnchangedTables`);
  - a worked example (`ChronicAbsentees`).
- `Controller` (`group_controller.dfy`) is the class `GroupController`:
  - Its fields are the group, membership, student, roll-state and roll tables.
  - The CRUD methods return a `ResourceNotFound` result for an unknown id.
  - `GetGroupStudents` is the listing join.
  - `RunGroupFilters` is the run. It loads the groups into an array and loops
    over it, one group per iteration (`RunGroup`), saving each group back as it
    goes. It is proved to leave exactly `Rebuilt` and `RefreshedAll` of the
    table it loaded.

Time is an integer number of seconds. A week is 604800 seconds. A rule run at
`now` counts rolls completed at or after `now - number_of_weeks * 604800`.

Behaviour of the code worth knowing:

- The code never checks `roll_states`, `number_of_weeks` or `incidents` before
  it evaluates a rule, so the model has no validation error. An empty
  `roll_states` splits into the single label `""`.
- Update and remove *return* a `ResourceNotFoundError` value; they do not throw
  it. The model returns `ResourceNotFound`.
- A student with no counted roll state forms no `GROUP BY` group. Such a
  student is never listed, even by a `<` or `<=` rule whose threshold zero
  would satisfy (`Rules.UncountedStudentNeverListed`).
- A run over unchanged tables is not always repeated by a later run, because
  each run measures its window from its own clock reading. A roll can leave a
  window between two runs (`Groups.ClockMoveDropsStudent`). Two runs agree when
  no counted roll falls in the stretch the window start moved over
  (`Groups.RerunUnchangedTables`).

## Model

| member | source | states |
|---|---|---|
| Rules.Split | back-end/src/controller/group-controller.ts:146 | splitting `roll_states` at "," yields at least one label, and no label contains a comma |
| Rules.JoinSplit | back-end/src/controller/group-controller.ts:146 | re-joining the split labels with "," gives back `roll_states` exactly, so empty labels are kept ("a,,b" has three labels) |
| Rules.SplitJoin | back-end/src/controller/group-controller.ts:146 | splitting the comma-join of comma-free labels gives back exactly those labels, in order |
| Rules.SplitPiece | back-end/src/controller/group-controller.ts:146 | a `roll_states` without a comma is the single label itself |
| Rules.Holds | back-end/src/controller/group-controller.ts:149 | the `HAVING` comparison `count <ltmt> incidents` for each of the five operators; `Rules.Having` and `Rules.ThresholdBoundary` state its use |
| Rules.Where | back-end/src/controller/group-controller.ts:146-147 | the `WHERE` parameters: the split `roll_states` labels and the window start; `Rules.SplitJoin` states what the labels are |
| Rules.Counted | back-end/src/controller/group-controller.ts:145-147 | a row survives the inner join with the roll table and the `WHERE` clause: its roll exists, its state is a listed label, and the roll was completed at or after the window start |
| Rules.IncidentCount | back-end/src/controller/group-controller.ts:141 | `COUNT` of a student's counted rows, never more than the rows of the table; `Rules.IncidentCountIsCardinality` states it as a set size |
| Rules.IncidentCountIsCardinality | back-end/src/controller/group-controller.ts:139-148 | a student's `incident_count` is the number of its roll-state rows that have a matching roll, a listed state, and a roll completed at or after the window start |
| Rules.IncidentCountAppend | back-end/src/controller/group-controller.ts:141 | the count over two concatenated tables is the sum of the counts over each |
| Rules.CountedStudents | back-end/src/controller/group-controller.ts:148 | `GROUP BY student_id` gives each student at most once, and gives a student iff it has at least one counted row |
| Rules.Having | back-end/src/controller/group-controller.ts:149 | `HAVING` keeps exactly the rows whose count satisfies `count <ltmt> incidents`, and a table with distinct students stays so |
| Rules.StudentRolls | back-end/src/controller/group-controller.ts:138-151 | `getStudentRolls` as `HAVING` over the counts of the `GROUP BY` groups; `Rules.StudentRollsSpec` states what it returns |
| Rules.StudentRollsSpec | back-end/src/controller/group-controller.ts:138-151 | `getStudentRolls` lists each student at most once; each listed count is that student's counted rows and satisfies the comparison; a student is listed iff its count is positive and satisfies the comparison |
| Rules.ThresholdBoundary | back-end/src/controller/group-controller.ts:149 | for a positive `incidents`, a student whose count equals it is left out by `>` and kept by `>=` and `=`; the zero case is `Rules.UncountedStudentNeverListed` |
| Rules.UncountedStudentNeverListed | back-end/src/controller/group-controller.ts:145-149 | a student none of whose rows is counted is never listed, whatever the operator and threshold |
| Rules.BoundaryRollCounted | back-end/src/controller/group-controller.ts:147 | a listed-state row on a roll completed exactly at the window start adds one to its student's count (the bound is inclusive) |
| Rules.StaleRollIgnored | back-end/src/controller/group-controller.ts:147 | a row appended to the table, on a roll completed before the window start, changes no result |
| Rules.SameCountedSameCounts | back-end/src/controller/group-controller.ts:141-148 | two `WHERE` clauses that accept the same rows give every student the same count and form the same groups |
| Rules.SameCountedSameRows | back-end/src/controller/group-controller.ts:138-151 | two window starts under which the same rows are counted give the same result of `getStudentRolls` |
| Groups.WindowStart | back-end/src/controller/group-controller.ts:94 | the window start `now - number_of_weeks * 604800`; `Groups.EvaluateWindowBoundary` states that the start itself is inside the window |
| Groups.Evaluate | back-end/src/controller/group-controller.ts:94-100 | one group's rule evaluated at `now` with its own window, labels, operator and threshold; `Groups.EvaluatorAtReadsRuleOnly` states what it reads |
| Groups.EvaluatorAtReadsRuleOnly | back-end/src/controller/group-controller.ts:94-100 | a group's evaluation depends only on its window, labels, threshold and operator |
| Groups.ToMemberships | back-end/src/controller/group-controller.ts:102-112 | one membership row per result row, in order, each carrying the group's id and that row's student and count; a row is produced iff it matches a result row |
| Groups.MembersOf | back-end/src/controller/group-controller.ts:82 | the membership rows of one group are exactly the table's rows carrying its id |
| Groups.Refreshed | back-end/src/controller/group-controller.ts:117-130 | after its run a group keeps its id, name and rule; `run_at` is the run time and `student_count` the number of its result rows |
| Groups.RefreshedAll | back-end/src/controller/group-controller.ts:92-93 | the group table after a run has the same length, and each group is refreshed in place |
| Groups.Rebuilt | back-end/src/controller/group-controller.ts:89-115 | the membership table after a run: the table is cleared, then each group's rows are appended in table order; `Groups.RebuiltRowFromRun` and `Groups.RebuiltHasEveryRow` state its contents |
| Groups.RebuiltRowFromRun | back-end/src/controller/group-controller.ts:89-115 | every membership row after a run was built in that run from some group's result rows; no old row survives the clear |
| Groups.RebuiltHasEveryRow | back-end/src/controller/group-controller.ts:93-115 | every result row of every group is in the membership table after the run |
| Groups.NoMembersOfAbsentGroup | back-end/src/controller/group-controller.ts:89-115 | after a run no membership row carries the id of a group not in the table |
| Groups.StudentCountMatchesMembership | back-end/src/controller/group-controller.ts:102-127 | after a run a group's membership rows are exactly those built from its evaluation, and its `student_count` equals their number and its number of result rows |
| Groups.RerunIdempotent | back-end/src/controller/group-controller.ts:87-131 | when the second run's evaluation returns the same rows for every group, it rebuilds the same membership table and the same `student_count`s; only `run_at` moves |
| Groups.EvaluateWindowBoundary | back-end/src/controller/group-controller.ts:94-96 | for a group run at `now`, a listed-state row on a roll completed exactly `number_of_weeks`·604800 s earlier counts, and a row appended to the table on an earlier roll changes nothing |
| Groups.BlockCount | back-end/src/controller/group-controller.ts:141 | when every row is counted and a student's rows are one block of the table, its `COUNT` is the block's length |
| Groups.TwoStudentsOneListed | back-end/src/controller/group-controller.ts:138-151 | a table of counted rows of two students in two blocks (the first `m` rows of one student, the rest of the other), where only the first student's count passes the comparison, gives exactly one result row: that student with its count |
| Groups.ChronicAbsentees | back-end/src/controller/group-controller.ts:87-100 | a 4-week "absent" `>= 3` group run at the window's end lists the student with four absences, with count 4, and not the student with two |
| Groups.EvaluateStable | back-end/src/controller/group-controller.ts:94-100 | a group's rule gives the same rows at a later run when no listed-state row is on a roll completed in the stretch its window start moved over |
| Groups.RerunUnchangedTables | back-end/src/controller/group-controller.ts:87-131 | a later run over unchanged tables rebuilds the same membership table and the same `student_count`s, provided no counted roll left any group's window in between |
| Groups.ClockMoveDropsStudent | back-end/src/controller/group-controller.ts:94-96 | unchanged tables alone do not make two runs agree: a student absent on a roll completed at time 0 is listed by a one-week `>= 1` rule run at 604800 and not by one run a second later |
| Controller.FromInput | back-end/src/controller/group-controller.ts:26-32 | the group record built from a create or update request: the request's name and rule, no `run_at`, no `student_count`; the create and update methods state its use |
| Controller.FindGroup | back-end/src/controller/group-controller.ts:42-43 | `findOne` finds a group iff the table has that id, and what it finds is a row of the table with that id |
| Controller.Without | back-end/src/controller/group-controller.ts:68 | `remove` keeps exactly the rows with another id, and leaves the table as it was when the id is absent |
| Controller.WithoutUnique | back-end/src/controller/group-controller.ts:68 | removing from a table keyed by id keeps it keyed, and removes exactly one row when the id is present |
| Controller.Save | back-end/src/controller/group-controller.ts:59 | `save` overwrites in place the row with the group's id, or appends the group when the id is new; a keyed table stays keyed |
| Controller.SaveAt | back-end/src/controller/group-controller.ts:130 | saving a group over the row at its own position in a keyed table changes that position only |
| Controller.RunStep | back-end/src/controller/group-controller.ts:118-130 | at stage `i` of a run, row `i` is as loaded, and saving it refreshed overwrites that row only, which is stage `i + 1` |
| Controller.RunDone | back-end/src/controller/group-controller.ts:93-131 | once every group is refreshed the table is the refreshed table, and ids are still a key |
| Controller.KnownMembers | back-end/src/controller/group-controller.ts:80-82 | the listing's joins and `WHERE` keep exactly the rows of the group whose student exists, each as often as in the table |
| Controller.JoinStudents | back-end/src/controller/group-controller.ts:76-81 | one listing row per membership row, with the student's id, first and last name and `full_name` = first + " " + last |
| Controller.GroupController.constructor | back-end/src/controller/group-controller.ts:14-17 | the controller starts over the given tables with group ids as a key |
| Controller.GroupController.CreateGroup | back-end/src/controller/group-controller.ts:23-37 | the new group has the input's name and rule and no run recorded; it is appended under a fresh id and nothing else changes |
| Controller.GroupController.UpdateGroup | back-end/src/controller/group-controller.ts:39-60 | an unknown id returns `ResourceNotFound` with the message "Resource not found." and leaves the table unchanged; otherwise that row alone gets the input's fields with `run_at` and `student_count` cleared |
| Controller.GroupController.RemoveGroup | back-end/src/controller/group-controller.ts:62-69 | an unknown id returns `ResourceNotFound` with the message "Resource not found." and leaves the table unchanged; otherwise exactly the group with that id is deleted and returned |
| Controller.GroupController.GetGroupStudents | back-end/src/controller/group-controller.ts:71-84 | no rows for an absent group; otherwise one row per membership row of the group whose student exists, in table order, with the student's names and `full_name` = first + " " + last |
| Controller.GroupController.RunGroup | back-end/src/controller/group-controller.ts:93-131 | one loop iteration for group `i`: its result rows are appended to the membership table and the group is saved refreshed; all other rows keep their stage |
| Controller.GroupController.RunGroupFilters | back-end/src/controller/group-controller.ts:87-136 | returns "Filters run successfully."; the membership table becomes `Rebuilt` and the group table `RefreshedAll` of the loaded groups at `now`; ids stay a key |

## Left out

- `allGroups` (`find()`) is not a separate member: it is the `groups` field of the controller.
- HTTP routing, request parsing, server start-up and seed data (`index.ts`) are not part of this model. Neither is the error class file (`errors.ts`); its error becomes the `ResourceNotFound` result.
- ORM and SQL mechanics are not modelled: repositories, query builders and raw rows. Tables are sequences and maps, and `getStudentRolls` is a function of them.
- The bare `roll_id` and `state` columns selected beside the `GROUP BY` are left out. Their values are unspecified in SQL, and the run never reads them.
- Controller.GroupController.RunGroupFilters: one `now` serves both the window start and `run_at`. The source reads the clock again for every group and for every `run_at`, so in the source those instants can differ by the run's duration.
- Controller.GroupController.RunGroupFilters: the membership saves and group saves that are not awaited are modelled as sequential writes that complete. Interleaving, write failures and a run aborted part way are not modelled.
- Time zones and date formatting (`moment`) are not modelled: times are integer seconds in one time base. The source compares the stored `completed_at` with the text of `timePeriod.format()`. So Rules.BoundaryRollCounted and Groups.EvaluateWindowBoundary hold for times kept in one format, which the roll entity and database settings (not part of this model) would have to give.
- `ltmt` is one of the five operators. An arbitrary string interpolated into the `HAVING` clause is not modelled.
- Controller.GroupController.UpdateGroup: `run_at` and `student_count` are set to none. Whether the ORM keeps the stored values for `undefined` properties on save is not modelled.
- Controller.GroupController.CreateGroup: the id the database assigns is a parameter. The method requires that the id is not already in use.
- `prepareToCreate` and `prepareToUpdate` are plain field assignments. The entity files are not part of this model.
- Rules.StudentRolls: result row order is the order of each student's first counted row. SQL leaves this order unspecified, and the lemmas about the result do not depend on it.
- Controller.GroupController.GetGroupStudents: the listing is in membership-table order. The query has no `ORDER BY`, so the source leaves this order unspecified.
- Controller.JoinStudents and Rules.Having assume an SQLite-like SQL dialect. There `||` joins strings and `" "` is a string, which `full_name` relies on. There `HAVING` may name the select alias `incident_count`. MySQL reads `||` as a logical OR by default, and PostgreSQL rejects the alias in `HAVING`. The connection settings (`index.ts`) are not part of this model.
- Controller.GroupController.UpdateGroup: the group is looked up by the request body's `id`, which may be missing. The ORM's `findOne(undefined)` may then return the first row instead of nothing. The model's id is always an integer. This ORM behaviour does not show in the source text and cannot be checked against these files.
- Controller.GroupController.RemoveGroup: it returns the removed group with its own id. The ORM's `remove` may return the entity with its primary key cleared. This ORM behaviour does not show in the source text and cannot be checked against these files.
- Controller.JoinStudents: the `||` concatenation of a NULL name is not modelled, because names are strings.
- The membership table's own row id and the student's photo are not modelled.

=== FILE: group_controller.dfy ===
/**
 * The group controller: it owns the group table and the group-student
 * (membership) table, answers the group CRUD requests, lists a group's
 * students, and runs every group's filter to rebuild the memberships.
 *
 * The student, roll and student roll-state tables are read here and written
 * elsewhere; they are fields that no method of the controller modifies.
 */
module Controller {
  import opened Rules
  import opened Groups

  /** What a request handler returns: its payload, or a ResourceNotFoundError with its message. */
  datatype Result<T> = Ok(value: T) | ResourceNotFound(message: string)

  /** The message a ResourceNotFoundError carries. */
  const ResourceNotFoundMessage: string := "Resource not found."

  /** The error update and remove return for an unknown id. */
  const NotFound: Result<Group> := ResourceNotFound(ResourceNotFoundMessage)

  /** The message a filter run answers with. */
  const FiltersRunMessage: string := "Filters run successfully."

  /** The fields a client sends to create or update a group. */
  datatype GroupInput = GroupInput(name: string, numberOfWeeks: int, rollStates: string, incidents: int, ltmt: Ltmt)

  /** One row of a group's student listing. */
  datatype GroupStudentRow = GroupStudentRow(id: StudentId, firstName: string, lastName: string, fullName: string)

  /** A group entity filled from client input: no run recorded yet. */
  function FromInput(id: int, input: GroupInput): Group
  {
    Group(id, input.name, input.numberOfWeeks, input.rollStates, input.incidents, input.ltmt, None, None)
  }

  /** findOne by id: the first group of the table with that id, if any. */
  function FindGroup(gs: seq<Group>, id: int): (found: Option<Group>)
    ensures found.Some? <==> HasId(gs, id)
    ensures found.Some? ==> found.value in gs && found.value.id == id
  {
    if gs == [] then None
    else if gs[0].id == id then Some(gs[0])
    else
      assert forall g :: g in gs && g != gs[0] ==> g in gs[1..];
      FindGroup(gs[1..], id)
  }

  /** The group table without the row of group `id`. */
  function Without(gs: seq<Group>, id: int): (r: seq<Group>)
    ensures forall g :: g in r <==> g in gs && g.id != id
    ensures !HasId(gs, id) ==> r == gs
  {
    if gs == [] then []
    else
      var rest := Without(gs[1..], id);
      assert forall g :: g in gs <==> g == gs[0] || g in gs[1..];
      if gs[0].id == id then rest else [gs[0]] + rest
  }

  /** The rows after the first of a keyed table are keyed and do not reuse its id. */
  lemma UniqueTail(gs: seq<Group>)
    requires UniqueIds(gs) && gs != []
    ensures UniqueIds(gs[1..]) && !HasId(gs[1..], gs[0].id)
  {
    var tail := gs[1..];
    forall g | g in tail ensures g.id != gs[0].id {
      var j :| 0 <= j < |tail| && tail[j] == g;
      assert gs[j + 1] == g;
    }
  }

  /** A row put in front of a keyed table that lacks its id keeps it keyed. */
  lemma UniqueCons(g: Group, rest: seq<Group>)
    requires UniqueIds(rest) && !HasId(rest, g.id)
    ensures UniqueIds([g] + rest)
  {
    var r := [g] + rest;
    forall i, j | 0 <= i < j < |r| ensures r[i].id != r[j].id {
      assert r[j] == rest[j - 1] && r[j] in rest;
    }
  }

  /**
   * Deleting from a table whose ids are a key keeps them a key and, when the
   * id is present, removes exactly one row.
   */
  lemma {:induction false} WithoutUnique(gs: seq<Group>, id: int)
    requires UniqueIds(gs)
    ensures UniqueIds(Without(gs, id))
    ensures HasId(gs, id) ==> |Without(gs, id)| == |gs| - 1
  {
    if gs != [] {
      var tail := gs[1..];
      UniqueTail(gs);
      WithoutUnique(tail, id);
      if gs[0].id != id {
        var rest := Without(tail, id);
        assert !HasId(rest, gs[0].id);
        UniqueCons(gs[0], rest);
        assert HasId(gs, id) ==> HasId(tail, id) by {
          if HasId(gs, id) {
            var g :| g in gs && g.id == id;
            assert g in tail;
          }
        }
      }
    }
  }

  /**
   * The repository's save: the row with `g`'s id is overwritten, or `g` is
   * appended when there is none.
   */
  function Save(gs: seq<Group>, g: Group): (r: seq<Group>)
    ensures HasId(gs, g.id) ==> |r| == |gs| && forall k :: 0 <= k < |gs| ==> r[k] == (if gs[k].id == g.id then g else gs[k])
    ensures !HasId(gs, g.id) ==> r == gs + [g]
    ensures UniqueIds(gs) ==> UniqueIds(r)
  {
    if HasId(gs, g.id) then seq(|gs|, k requires 0 <= k < |gs| => if gs[k].id == g.id then g else gs[k])
    else gs + [g]
  }

  /**
   * Saving the group at position `i` of a table whose ids are those of a
   * table with unique ids overwrites that position only.
   */
  lemma SaveAt(gs: seq<Group>, i: int, g: Group, ids: seq<Group>)
    requires |gs| == |ids| && UniqueIds(ids) && forall k :: 0 <= k < |gs| ==> gs[k].id == ids[k].id
    requires 0 <= i < |gs| && g.id == gs[i].id
    ensures Save(gs, g) == gs[i := g]
  {
    assert gs[i] in gs;
  }

  /**
   * A stage of a run over the loaded `table`: the first `i` rows of `b` are
   * refreshed and the others are as loaded.
   */
  predicate Staged(b: seq<Group>, table: seq<Group>, i: int, eval: Evaluator, now: Time)
  {
    |b| == |table| && 0 <= i <= |table|
    && (forall k :: 0 <= k < i ==> b[k] == Refreshed(table[k], eval, now))
    && (forall k :: i <= k < |b| ==> b[k] == table[k])
  }

  /**
   * One step of a run: saving the refreshed group `i` into a table at stage
   * `i` overwrites row `i` only, which is stage `i + 1`.
   */
  lemma RunStep(table: seq<Group>, eval: Evaluator, now: Time, i: int, before: seq<Group>)
    requires UniqueIds(table) && i < |table| && Staged(before, table, i, eval, now)
    ensures before[i] == table[i]
    ensures Save(before, Refreshed(table[i], eval, now)) == before[i := Refreshed(table[i], eval, now)]
    ensures Staged(before[i := Refreshed(table[i], eval, now)], table, i + 1, eval, now)
  {
    assert forall k :: 0 <= k < |before| ==> before[k].id == table[k].id;
    SaveAt(before, i, Refreshed(table[i], eval, now), table);
  }

  /**
   * At the end of a run, the table at the last stage is the refreshed table,
   * and its ids are still a key.
   */
  lemma RunDone(table: seq<Group>, eval: Evaluator, now: Time, done: seq<Group>)
    requires UniqueIds(table) && Staged(done, table, |table|, eval, now)
    ensures done == RefreshedAll(table, eval, now)
    ensures UniqueIds(done)
  {
    assert forall k :: 0 <= k < |done| ==> done[k].id == table[k].id;
  }

  /**
   * The membership rows that survive the listing's joins and WHERE clause:
   * those of group `groupId` whose student is in the student table, each as
   * many times as the table holds it, in table order.
   */
  function KnownMembers(ms: seq<GroupStudent>, students: map<StudentId, Student>, groupId: int): (r: seq<GroupStudent>)
    ensures forall m :: m in r ==> m.groupId == groupId && m.studentId in students
    ensures forall m :: multiset(r)[m] == if m.groupId == groupId && m.studentId in students then multiset(ms)[m] else 0
  {
    if ms == [] then []
    else
      assert ms == [ms[0]] + ms[1..];
      (if ms[0].groupId == groupId && ms[0].studentId in students then [ms[0]] else [])
        + KnownMembers(ms[1..], students, groupId)
  }

  /** One listing row per membership row, with the student's names. */
  function JoinStudents(ms: seq<GroupStudent>, students: map<StudentId, Student>): (rows: seq<GroupStudentRow>)
    requires forall m :: m in ms ==> m.studentId in students
    ensures |rows| == |ms|
    ensures forall k :: 0 <= k < |ms| ==>
      var s := students[ms[k].studentId];
      rows[k] == GroupStudentRow(ms[k].studentId, s.firstName, s.lastName, s.firstName + " " + s.lastName)
  {
    if ms == [] then []
    else
      var s := students[ms[0].studentId];
      [GroupStudentRow(ms[0].studentId, s.firstName, s.lastName, s.firstName + " " + s.lastName)]
        + JoinStudents(ms[1..], students)
  }

  class GroupController {
    var groups: seq<Group>
    var groupStudents: seq<GroupStudent>
    var students: map<StudentId, Student>
    var studentRollStates: seq<StudentRollState>
    var rolls: map<RollId, Time>

    /** Group ids stay a primary key. */
    ghost predicate Valid()
      reads this
    {
      UniqueIds(groups)
    }

    constructor (groups: seq<Group>, groupStudents: seq<GroupStudent>, students: map<StudentId, Student>,
                 studentRollStates: seq<StudentRollState>, rolls: map<RollId, Time>)
      requires UniqueIds(groups)
      ensures Valid()
      ensures this.groups == groups && this.groupStudents == groupStudents && this.students == students
      ensures this.studentRollStates == studentRollStates && this.rolls == rolls
    {
      this.groups := groups;
      this.groupStudents := groupStudents;
      this.students := students;
      this.studentRollStates := studentRollStates;
      this.rolls := rolls;
    }

    /** createGroup: a new group under the id the table assigns, with no run recorded. */
    method CreateGroup(input: GroupInput, id: int) returns (g: Group)
      requires Valid()
      requires !HasId(groups, id)
      modifies this`groups
      ensures Valid()
      ensures g == FromInput(id, input)
      ensures groups == old(groups) + [g]
    {
      g := FromInput(id, input);
      groups := Save(groups, g);
    }

    /**
     * updateGroup: a ResourceNotFoundError for an unknown id; otherwise the
     * group's name and rule are replaced, its run metadata cleared, and the
     * rest of the table is left alone.
     */
    method UpdateGroup(id: int, input: GroupInput) returns (r: Result<Group>)
      requires Valid()
      modifies this`groups
      ensures Valid()
      ensures !HasId(old(groups), id) ==> r == NotFound && groups == old(groups)
      ensures HasId(old(groups), id) ==>
        r == Ok(FromInput(id, input))
        && |groups| == |old(groups)|
        && forall k :: 0 <= k < |groups| ==> groups[k] == (if old(groups)[k].id == id then r.value else old(groups)[k])
    {
      var found := FindGroup(groups, id);
      if found.None? {
        return NotFound;
      }
      var group := found.value.(id := id, name := input.name, numberOfWeeks := input.numberOfWeeks,
                                rollStates := input.rollStates, incidents := input.incidents, ltmt := input.ltmt,
                                runAt := None, studentCount := None);
      groups := Save(groups, group);
      r := Ok(group);
    }

    /**
     * removeGroup: a ResourceNotFoundError for an unknown id; otherwise exactly
     * that group leaves the table. Its membership rows stay until the next run.
     */
    method RemoveGroup(id: int) returns (r: Result<Group>)
      requires Valid()
      modifies this`groups
      ensures Valid()
      ensures !HasId(old(groups), id) ==> r == NotFound && groups == old(groups)
      ensures HasId(old(groups), id) ==>
        r.Ok? && r.value in old(groups) && r.value.id == id
        && groups == Without(old(groups), id) && |groups| == |old(groups)| - 1
    {
      var found := FindGroup(groups, id);
      if found.None? {
        return NotFound;
      }
      WithoutUnique(groups, id);
      groups := Without(groups, id);
      r := Ok(found.value);
    }

    /**
     * getGroupStudents: one row per membership row of the group whose student
     * exists, with the student's names and `full_name` = first + " " + last;
     * nothing when the group itself does not exist.
     */
    function GetGroupStudents(groupId: int): (rows: seq<GroupStudentRow>)
      reads this
      ensures !HasId(groups, groupId) ==> rows == []
      ensures HasId(groups, groupId) ==>
        var known := KnownMembers(groupStudents, students, groupId);
        |rows| == |known| && forall k :: 0 <= k < |rows| ==> rows[k].id == known[k].studentId
      ensures forall k :: 0 <= k < |rows| ==>
        rows[k].id in students
        && rows[k].firstName == students[rows[k].id].firstName
        && rows[k].lastName == students[rows[k].id].lastName
        && rows[k].fullName == rows[k].firstName + " " + rows[k].lastName
    {
      if HasId(groups, groupId) then JoinStudents(KnownMembers(groupStudents, students, groupId), students) else []
    }

    /** The evaluator a run started at `now` applies to every group. */
    function RuleAt(now: Time): Evaluator
      reads this`studentRollStates, this`rolls
    {
      EvaluatorAt(studentRollStates, rolls, now)
    }

    /**
     * The state of a filter run after its first `i` groups: those are
     * refreshed in `batch`, the rest are as loaded, the group table holds the
     * same rows, and the membership table holds exactly their rows.
     */
    ghost predicate RunStage(batch: array<Group>, table: seq<Group>, i: int, now: Time)
      reads this, batch
    {
      UniqueIds(table)
      && Staged(batch[..], table, i, RuleAt(now), now)
      && groups == batch[..]
      && groupStudents == Rebuilt(table[..i], RuleAt(now))
    }

    /**
     * The body of the run's loop for group `i`: evaluate its rule, append its
     * membership rows, record the run on the group and save it.
     */
    method RunGroup(batch: array<Group>, table: seq<Group>, i: int, now: Time)
      requires RunStage(batch, table, i, now) && i < batch.Length
      modifies this`groups, this`groupStudents, batch
      ensures RunStage(batch, table, i + 1, now)
    {
      ghost var eval := RuleAt(now);
      ghost var before := batch[..];
      RebuiltStep(table, eval, i);
      RunStep(table, eval, now, i, before);
      var group := batch[i];
      assert group == table[i];
      var rows := StudentRolls(studentRollStates, rolls, WindowStart(now, group.numberOfWeeks),
                               group.rollStates, group.ltmt, group.incidents);
      var studentsInGroup := ToMemberships(group.id, rows);
      assert rows == eval(table[i]);
      assert groupStudents + studentsInGroup == Rebuilt(table[..i + 1], eval);
      groupStudents := groupStudents + studentsInGroup;
      batch[i] := group.(runAt := Some(now), studentCount := Some(|studentsInGroup|));
      assert batch[i] == Refreshed(table[i], eval, now);
      assert batch[..] == before[i := batch[i]];
      groups := Save(groups, batch[i]);
      assert RuleAt(now) == eval;
    }

    /**
     * runGroupFilters: clears the membership table, then for each group in
     * table order evaluates its rule at `now`, appends one membership row per
     * result row and saves the group with `run_at` = `now` and `student_count`
     * = the number of rows appended.
     */
    method RunGroupFilters(now: Time) returns (message: string)
      requires Valid()
      modifies this`groups, this`groupStudents
      ensures Valid()
      ensures message == FiltersRunMessage
      ensures groupStudents == Rebuilt(old(groups), EvaluatorAt(studentRollStates, rolls, now))
      ensures groups == RefreshedAll(old(groups), EvaluatorAt(studentRollStates, rolls, now), now)
    {
      var table := groups;
      groupStudents := [];
      var batch := new Group[|table|](k requires 0 <= k < |table| => table[k]);
      var i := 0;
      while i < batch.Length
        invariant RunStage(batch, table, i, now)
      {
        RunGroup(batch, table, i, now);
        i := i + 1;
      }
      assert table[..i] == table;
      RunDone(table, RuleAt(now), now, groups);
      message := FiltersRunMessage;
    }
  }
}

=== FILE: groups.dfy ===
/**
 * Groups and their memberships, and what one filter run computes from them.
 *
 * A run evaluates every group's rule, turns each result row into a membership
 * record of that group, and refreshes the group's `run_at` and `student_count`.
 * `Rebuilt` is the membership table a run leaves behind and `RefreshedAll` the
 * group table. Both take the rule evaluation as a function of the group
 * (`Evaluator`): a run uses `EvaluatorAt` over the roll tables at its start time.
 * The lemmas about a run hold for any evaluation; the last sections are about
 * the rule evaluated over given roll tables at a given time.
 */
module Groups {
  import opened Rules

  datatype Option<T> = None | Some(value: T)

  /** A saved filter: its rule and the metadata of its last evaluation. */
  datatype Group = Group(
    id: int,
    name: string,
    numberOfWeeks: int,
    rollStates: string,
    incidents: int,
    ltmt: Ltmt,
    runAt: Option<Time>,
    studentCount: Option<int>)

  /** A row of the group-student (membership) table. */
  datatype GroupStudent = GroupStudent(groupId: int, studentId: StudentId, incidentCount: nat)

  /** A row of the student table, keyed by its id. */
  datatype Student = Student(firstName: string, lastName: string)

  predicate HasId(gs: seq<Group>, id: int)
  {
    exists g :: g in gs && g.id == id
  }

  /** Group ids are the table's primary key. */
  predicate UniqueIds(gs: seq<Group>)
  {
    forall i, j :: 0 <= i < j < |gs| ==> gs[i].id != gs[j].id
  }

  /** The start of a rule's window: `number_of_weeks` weeks before `now`. */
  function WindowStart(now: Time, numberOfWeeks: int): Time
  {
    now - numberOfWeeks * SecondsPerWeek
  }

  /** The rule of group `g` evaluated at time `now`. */
  function Evaluate(g: Group, outcomes: seq<StudentRollState>, rolls: map<RollId, Time>, now: Time): seq<IncidentRow>
  {
    StudentRolls(outcomes, rolls, WindowStart(now, g.numberOfWeeks), g.rollStates, g.ltmt, g.incidents)
  }

  type Evaluator = Group -> seq<IncidentRow>

  /** Rule evaluation over fixed roll tables at one instant. */
  function EvaluatorAt(outcomes: seq<StudentRollState>, rolls: map<RollId, Time>, now: Time): Evaluator
  {
    g => Evaluate(g, outcomes, rolls, now)
  }

  /** Two groups with the same rule: window, labels, threshold and operator. */
  predicate SameRule(g: Group, h: Group)
  {
    g.numberOfWeeks == h.numberOfWeeks && g.rollStates == h.rollStates && g.incidents == h.incidents && g.ltmt == h.ltmt
  }

  /** An evaluation that looks at a group's rule and nothing else of it. */
  ghost predicate ReadsRuleOnly(eval: Evaluator)
  {
    forall g, h :: SameRule(g, h) ==> eval(g) == eval(h)
  }

  lemma EvaluatorAtReadsRuleOnly(outcomes: seq<StudentRollState>, rolls: map<RollId, Time>, now: Time)
    ensures ReadsRuleOnly(EvaluatorAt(outcomes, rolls, now))
  {
  }

  /** The membership records of group `groupId` built from evaluator rows, one per row. */
  function ToMemberships(groupId: int, rows: seq<IncidentRow>): (ms: seq<GroupStudent>)
    ensures |ms| == |rows|
    ensures forall i :: 0 <= i < |rows| ==>
      ms[i].groupId == groupId && ms[i].studentId == rows[i].studentId && ms[i].incidentCount == rows[i].incidentCount
    ensures forall m :: m in ms <==> m.groupId == groupId && IncidentRow(m.studentId, m.incidentCount) in rows
  {
    if rows == [] then []
    else [GroupStudent(groupId, rows[0].studentId, rows[0].incidentCount)] + ToMemberships(groupId, rows[1..])
  }

  /** The membership records of group `groupId`, in table order. */
  function MembersOf(ms: seq<GroupStudent>, groupId: int): (r: seq<GroupStudent>)
    ensures forall m :: m in r <==> m in ms && m.groupId == groupId
  {
    if ms == [] then []
    else
      assert forall m :: m in ms[1..] ==> m in ms;
      assert ms == [ms[0]] + ms[1..];
      (if ms[0].groupId == groupId then [ms[0]] else []) + MembersOf(ms[1..], groupId)
  }

  /** The records built for one group are all of that group's records among them. */
  lemma {:induction false} MembersOfBuilt(groupId: int, rows: seq<IncidentRow>, other: int)
    ensures MembersOf(ToMemberships(groupId, rows), groupId) == ToMemberships(groupId, rows)
    ensures other != groupId ==> MembersOf(ToMemberships(groupId, rows), other) == []
  {
    if rows != [] {
      MembersOfBuilt(groupId, rows[1..], other);
    }
  }

  lemma {:induction false} MembersOfAppend(a: seq<GroupStudent>, b: seq<GroupStudent>, groupId: int)
    ensures MembersOf(a + b, groupId) == MembersOf(a, groupId) + MembersOf(b, groupId)
    decreases |a|
  {
    if a != [] {
      assert (a + b)[1..] == a[1..] + b;
      MembersOfAppend(a[1..], b, groupId);
    } else {
      assert a + b == b;
    }
  }

  /** The group after its run: new `run_at` and `student_count`, rule and name untouched. */
  function Refreshed(g: Group, eval: Evaluator, now: Time): (r: Group)
    ensures r.id == g.id && r.name == g.name && SameRule(r, g)
    ensures r.runAt == Some(now)
    ensures r.studentCount == Some(|eval(g)|)
  {
    g.(runAt := Some(now), studentCount := Some(|ToMemberships(g.id, eval(g))|))
  }

  /** The group table after a run over `gs`. */
  function RefreshedAll(gs: seq<Group>, eval: Evaluator, now: Time): (r: seq<Group>)
    ensures |r| == |gs|
    ensures forall k :: 0 <= k < |gs| ==> r[k] == Refreshed(gs[k], eval, now)
  {
    if gs == [] then []
    else RefreshedAll(gs[..|gs| - 1], eval, now) + [Refreshed(gs[|gs| - 1], eval, now)]
  }

  /** The membership table after a run over `gs`: the old table plays no part. */
  function Rebuilt(gs: seq<Group>, eval: Evaluator): seq<GroupStudent>
  {
    if gs == [] then []
    else
      var g := gs[|gs| - 1];
      Rebuilt(gs[..|gs| - 1], eval) + ToMemberships(g.id, eval(g))
  }

  /** One more group processed: its records are appended after the earlier ones. */
  lemma RebuiltStep(gs: seq<Group>, eval: Evaluator, i: int)
    requires 0 <= i < |gs|
    ensures Rebuilt(gs[..i + 1], eval) == Rebuilt(gs[..i], eval) + ToMemberships(gs[i].id, eval(gs[i]))
  {
    assert gs[..i + 1][..i] == gs[..i];
  }

  // ---------------------------------------------------------------------------
  // What a run promises
  // ---------------------------------------------------------------------------

  /**
   * Membership record `m` is one of those built for group `g` from its
   * evaluation: by ToMemberships, `m` carries `g`'s id and the student and
   * count of one evaluator row.
   */
  predicate Produced(g: Group, m: GroupStudent, eval: Evaluator)
  {
    m in ToMemberships(g.id, eval(g))
  }

  /** After a run every membership record comes from some group's evaluation in that run. */
  lemma {:induction false} RebuiltRowFromRun(gs: seq<Group>, eval: Evaluator, m: GroupStudent)
    requires m in Rebuilt(gs, eval)
    ensures exists k :: 0 <= k < |gs| && Produced(gs[k], m, eval)
  {
    var n := |gs| - 1;
    var prefix := gs[..n];
    if m in ToMemberships(gs[n].id, eval(gs[n])) {
      assert Produced(gs[n], m, eval);
    } else {
      RebuiltRowFromRun(prefix, eval, m);
      var k :| 0 <= k < |prefix| && Produced(prefix[k], m, eval);
      assert prefix[k] == gs[k];
    }
  }

  /** After a run every row of every group's evaluation is in the membership table. */
  lemma {:induction false} RebuiltHasEveryRow(gs: seq<Group>, eval: Evaluator, k: int, m: GroupStudent)
    requires 0 <= k < |gs| && Produced(gs[k], m, eval)
    ensures m in Rebuilt(gs, eval)
  {
    var n := |gs| - 1;
    var prefix := gs[..n];
    if k < n {
      assert prefix[k] == gs[k];
      RebuiltHasEveryRow(prefix, eval, k, m);
    }
  }

  lemma {:induction false} NoMembersOfAbsentGroup(gs: seq<Group>, eval: Evaluator, groupId: int)
    requires forall k :: 0 <= k < |gs| ==> gs[k].id != groupId
    ensures MembersOf(Rebuilt(gs, eval), groupId) == []
  {
    if gs != [] {
      var n := |gs| - 1;
      var prefix := gs[..n];
      var added := ToMemberships(gs[n].id, eval(gs[n]));
      assert forall k :: 0 <= k < n ==> prefix[k] == gs[k];
      assert Rebuilt(gs, eval) == Rebuilt(prefix, eval) + added;
      assert gs[n].id != groupId;
      NoMembersOfAbsentGroup(prefix, eval, groupId);
      MembersOfAppend(Rebuilt(prefix, eval), added, groupId);
      MembersOfBuilt(gs[n].id, eval(gs[n]), groupId);
    }
  }

  /**
   * After a run, the membership records carrying a group's id are exactly
   * those built from its evaluation, and its `student_count` is their number.
   */
  lemma {:induction false} StudentCountMatchesMembership(gs: seq<Group>, eval: Evaluator, now: Time, k: int)
    requires UniqueIds(gs)
    requires 0 <= k < |gs|
    ensures MembersOf(Rebuilt(gs, eval), gs[k].id) == ToMemberships(gs[k].id, eval(gs[k]))
    ensures RefreshedAll(gs, eval, now)[k].studentCount
         == Some(|MembersOf(Rebuilt(gs, eval), gs[k].id)|)
         == Some(|eval(gs[k])|)
  {
    var n := |gs| - 1;
    var prefix := gs[..n];
    var last := gs[n];
    var added := ToMemberships(last.id, eval(last));
    assert Rebuilt(gs, eval) == Rebuilt(prefix, eval) + added;
    MembersOfAppend(Rebuilt(prefix, eval), added, gs[k].id);
    MembersOfBuilt(last.id, eval(last), gs[k].id);
    if k == n {
      assert forall j :: 0 <= j < n ==> prefix[j].id != last.id;
      NoMembersOfAbsentGroup(prefix, eval, last.id);
      assert MembersOf(Rebuilt(gs, eval), gs[k].id) == added;
    } else {
      assert prefix[k] == gs[k];
      assert gs[k].id != last.id;
      assert UniqueIds(prefix);
      StudentCountMatchesMembership(prefix, eval, now, k);
      assert MembersOf(Rebuilt(gs, eval), gs[k].id) == MembersOf(Rebuilt(prefix, eval), gs[k].id);
    }
  }

  /**
   * A second run whose evaluation returns the same rows for every group
   * rebuilds the same membership table and records the same `student_count`
   * everywhere; only `run_at` moves to the new run's time. `again` is the
   * second run's evaluation. `QuietBetween` below says when the roll tables
   * give that.
   */
  lemma {:induction false} RerunIdempotent(gs: seq<Group>, eval: Evaluator, now: Time, again: Evaluator, later: Time)
    requires ReadsRuleOnly(again)
    requires forall k :: 0 <= k < |gs| ==> again(gs[k]) == eval(gs[k])
    ensures Rebuilt(RefreshedAll(gs, eval, now), again) == Rebuilt(gs, eval)
    ensures RefreshedAll(RefreshedAll(gs, eval, now), again, later)
         == RefreshedAll(gs, eval, later)
  {
    if gs != [] {
      var n := |gs| - 1;
      var once := RefreshedAll(gs, eval, now);
      assert once[..n] == RefreshedAll(gs[..n], eval, now);
      assert SameRule(once[n], gs[n]);
      RerunIdempotent(gs[..n], eval, now, again, later);
    }
  }

  /**
   * The window of a rule run at `now` starts exactly `number_of_weeks` weeks
   * (604800 seconds each) earlier and includes its start: a listed roll state
   * on a roll completed at that instant adds one incident to its student, and
   * one on a roll completed earlier changes nothing.
   */
  lemma EvaluateWindowBoundary(g: Group, outcomes: seq<StudentRollState>, rolls: map<RollId, Time>, now: Time, o: StudentRollState)
    requires o.rollId in rolls
    ensures o.state in Split(g.rollStates, ',') && rolls[o.rollId] == now - g.numberOfWeeks * 604800 ==>
      IncidentCount(outcomes + [o], rolls, Where(g.rollStates, WindowStart(now, g.numberOfWeeks)), o.studentId)
        == IncidentCount(outcomes, rolls, Where(g.rollStates, WindowStart(now, g.numberOfWeeks)), o.studentId) + 1
    ensures rolls[o.rollId] < now - g.numberOfWeeks * 604800 ==>
      Evaluate(g, outcomes + [o], rolls, now) == Evaluate(g, outcomes, rolls, now)
  {
    var start := WindowStart(now, g.numberOfWeeks);
    if o.state in Split(g.rollStates, ',') && rolls[o.rollId] == start {
      BoundaryRollCounted(outcomes, rolls, start, g.rollStates, o);
    } else if rolls[o.rollId] < start {
      StaleRollIgnored(outcomes, rolls, start, g.rollStates, g.ltmt, g.incidents, o);
    }
  }

  // ---------------------------------------------------------------------------
  // Runs at two instants
  // ---------------------------------------------------------------------------

  /**
   * No listed-state row of the roll-state table is on a roll completed in
   * the stretch by which `g`'s window start moves from a run at `now` to a
   * run at `later`.
   */
  predicate QuietBetween(g: Group, outcomes: seq<StudentRollState>, rolls: map<RollId, Time>, now: Time, later: Time)
  {
    forall o :: o in outcomes && o.rollId in rolls && o.state in Split(g.rollStates, StateSeparator) ==>
      !(WindowStart(now, g.numberOfWeeks) <= rolls[o.rollId] < WindowStart(later, g.numberOfWeeks))
  }

  /** A group's rule gives the same rows at a later run when nothing counted left its window meanwhile. */
  lemma EvaluateStable(g: Group, outcomes: seq<StudentRollState>, rolls: map<RollId, Time>, now: Time, later: Time)
    requires now <= later
    requires QuietBetween(g, outcomes, rolls, now, later)
    ensures Evaluate(g, outcomes, rolls, later) == Evaluate(g, outcomes, rolls, now)
  {
    SameCountedSameRows(outcomes, rolls, WindowStart(later, g.numberOfWeeks), WindowStart(now, g.numberOfWeeks),
                        g.rollStates, g.ltmt, g.incidents);
  }

  /**
   * Running the filters again at `later` over unchanged tables rebuilds the
   * same membership table and the same `student_count`s, provided no counted
   * row left any group's window between the two runs.
   */
  lemma RerunUnchangedTables(gs: seq<Group>, outcomes: seq<StudentRollState>, rolls: map<RollId, Time>, now: Time, later: Time)
    requires now <= later
    requires forall k :: 0 <= k < |gs| ==> QuietBetween(gs[k], outcomes, rolls, now, later)
    ensures Rebuilt(RefreshedAll(gs, EvaluatorAt(outcomes, rolls, now), now), EvaluatorAt(outcomes, rolls, later))
         == Rebuilt(gs, EvaluatorAt(outcomes, rolls, now))
    ensures RefreshedAll(RefreshedAll(gs, EvaluatorAt(outcomes, rolls, now), now), EvaluatorAt(outcomes, rolls, later), later)
         == RefreshedAll(gs, EvaluatorAt(outcomes, rolls, now), later)
  {
    var first := EvaluatorAt(outcomes, rolls, now);
    var again := EvaluatorAt(outcomes, rolls, later);
    EvaluatorAtReadsRuleOnly(outcomes, rolls, later);
    forall k | 0 <= k < |gs| ensures again(gs[k]) == first(gs[k]) {
      EvaluateStable(gs[k], outcomes, rolls, now, later);
    }
    RerunIdempotent(gs, first, now, again, later);
  }

  /**
   * Unchanged tables alone do not make a second run agree with the first: one
   * absence on a roll completed at time 0 lists the student under a one-week
   * rule run at 604800 and no longer one second later.
   */
  lemma ClockMoveDropsStudent()
    ensures var o := StudentRollState(1, 42, 7, "absent");
      var g := Group(1, "Absent this week", 1, "absent", 1, Ge, None, None);
      42 in StudentsOf(Evaluate(g, [o], map[7 := 0], SecondsPerWeek))
      && 42 !in StudentsOf(Evaluate(g, [o], map[7 := 0], SecondsPerWeek + 1))
  {
    var o := StudentRollState(1, 42, 7, "absent");
    var rolls := map[7 := 0];
    SplitPiece("absent", StateSeparator);
    assert [o][..0] == [];
    StudentRollsSpec([o], rolls, 0, "absent", Ge, 1);
    StudentRollsSpec([o], rolls, 1, "absent", Ge, 1);
    assert IncidentCount([o], rolls, Where("absent", 0), 42) == 1;
    assert IncidentCount([o], rolls, Where("absent", 1), 42) == 0;
  }

  /** A student whose rows are one block of a table where every row is counted has the block's length as count. */
  lemma {:induction false} BlockCount(outcomes: seq<StudentRollState>, rolls: map<RollId, Time>, where: Criteria,
                                      sid: StudentId, lo: int, hi: int)
    requires 0 <= lo <= hi <= |outcomes|
    requires forall k :: 0 <= k < |outcomes| ==> Counted(outcomes[k], rolls, where)
    requires forall k :: 0 <= k < |outcomes| ==> (outcomes[k].studentId == sid <==> lo <= k < hi)
    ensures IncidentCount(outcomes, rolls, where, sid) == hi - lo
  {
    if outcomes != [] {
      var n := |outcomes| - 1;
      var prefix := outcomes[..n];
      assert forall k :: 0 <= k < n ==> prefix[k] == outcomes[k];
      if lo <= n < hi {
        BlockCount(prefix, rolls, where, sid, lo, n);
      } else if hi <= n {
        BlockCount(prefix, rolls, where, sid, lo, hi);
      } else {
        BlockCount(prefix, rolls, where, sid, n, n);
      }
    }
  }

  /**
   * A table whose rows are all counted, the first `m` of student `a` and the
   * rest of student `b`, lists `a` alone when only `a`'s count passes the rule.
   */
  lemma {:induction false} TwoStudentsOneListed(outcomes: seq<StudentRollState>, rolls: map<RollId, Time>, windowStart: Time,
                                                rollStates: string, op: Ltmt, incidents: int, a: StudentId, b: StudentId, m: nat)
    requires 0 < m <= |outcomes| && a != b
    requires forall k :: 0 <= k < |outcomes| ==> Counted(outcomes[k], rolls, Where(rollStates, windowStart))
    requires forall k :: 0 <= k < |outcomes| ==> outcomes[k].studentId == (if k < m then a else b)
    requires Holds(op, m, incidents) && !Holds(op, |outcomes| - m, incidents)
    ensures StudentRolls(outcomes, rolls, windowStart, rollStates, op, incidents) == [IncidentRow(a, m)]
  {
    var where := Where(rollStates, windowStart);
    BlockCount(outcomes, rolls, where, a, 0, m);
    BlockCount(outcomes, rolls, where, b, m, |outcomes|);
    forall sid | sid != a && sid != b
      ensures IncidentCount(outcomes, rolls, where, sid) == 0
    {
      BlockCount(outcomes, rolls, where, sid, 0, 0);
    }
    StudentRollsSpec(outcomes, rolls, windowStart, rollStates, op, incidents);
    var rows := StudentRolls(outcomes, rolls, windowStart, rollStates, op, incidents);
    assert StudentsOf(rows) == {a};
    StudentAt(rows, a, 0);
    if |rows| >= 2 {
      StudentAt(rows, a, 1);
      assert false;
    }
  }

  lemma StudentAt(rows: seq<IncidentRow>, a: StudentId, i: int)
    requires StudentsOf(rows) == {a} && 0 <= i < |rows|
    ensures rows[i].studentId == a
  {
    assert rows[i] in rows;
    assert rows[i].studentId in StudentsOf(rows);
  }

  /**
   * A four-week "absent" `>= 3` rule run at the end of the window, over four
   * rolls completed at its start: student 1 is absent from all four and is
   * listed with count 4; student 2 is absent from the first two and is not.
   */
  lemma ChronicAbsentees()
    ensures var g := Group(1, "Chronic absentees", 4, "absent", 3, Ge, None, None);
      var outcomes := seq(6, k requires 0 <= k < 6 => StudentRollState(k + 1, if k < 4 then 1 else 2, k % 4 + 1, "absent"));
      var rolls := map[1 := 0, 2 := 0, 3 := 0, 4 := 0];
      Evaluate(g, outcomes, rolls, 4 * SecondsPerWeek) == [IncidentRow(1, 4)]
  {
    var outcomes := seq(6, k requires 0 <= k < 6 => StudentRollState(k + 1, if k < 4 then 1 else 2, k % 4 + 1, "absent"));
    var rolls := map[1 := 0, 2 := 0, 3 := 0, 4 := 0];
    var where := Criteria(["absent"], 0);
    SplitPiece("absent", StateSeparator);
    assert Where("absent", 0) == where;
    assert forall k :: 0 <= k < |outcomes| ==> Counted(outcomes[k], rolls, where);
    TwoStudentsOneListed(outcomes, rolls, 0, "absent", Ge, 3, 1, 2, 4);
  }
}

=== FILE: rules.dfy ===
/**
 * Rule evaluation for saved group filters.
 *
 * A group rule counts, per student, the roll states ("incidents") whose state is
 * one of the comma-separated labels of `roll_states` and whose roll was completed
 * at or after the start of the rule's time window; it keeps the students whose
 * count satisfies `count <ltmt> incidents`. The source phrases this as one SQL
 * aggregation (inner join, WHERE, GROUP BY, HAVING); here it is a pure function
 * over in-memory tables.
 */
module Rules {

  type StudentId = int
  type RollId = int

  /** Seconds since the Unix epoch, UTC. */
  type Time = int

  /** A week as subtracted from the current UTC time (UTC has no daylight saving). */
  const SecondsPerWeek: int := 604800

  /** The separator of the labels in a rule's `roll_states`. */
  const StateSeparator: char := ','

  /** The comparison operator of a rule (`ltmt`): `<`, `<=`, `>`, `>=`, `=`. */
  datatype Ltmt = Lt | Le | Gt | Ge | Eq

  /** The HAVING predicate `count <ltmt> incidents`. */
  predicate Holds(op: Ltmt, count: int, incidents: int)
  {
    match op
    case Lt => count < incidents
    case Le => count <= incidents
    case Gt => count > incidents
    case Ge => count >= incidents
    case Eq => count == incidents
  }

  // ---------------------------------------------------------------------------
  // Splitting `roll_states` on commas, as JavaScript's String.prototype.split
  // does: "" gives [""], "a,,b" gives ["a", "", "b"].
  // ---------------------------------------------------------------------------

  function Split(s: string, sep: char): (pieces: seq<string>)
    ensures |pieces| >= 1
    ensures forall p :: p in pieces ==> sep !in p
    decreases |s|
  {
    if s == [] then [[]]
    else
      var rest := Split(s[1..], sep);
      if s[0] == sep then [[]] + rest
      else [[s[0]] + rest[0]] + rest[1..]
  }

  /** The inverse of Split: the pieces glued back with the separator between them. */
  function Join(pieces: seq<string>, sep: char): string
    requires |pieces| >= 1
    decreases |pieces|
  {
    if |pieces| == 1 then pieces[0] else pieces[0] + [sep] + Join(pieces[1..], sep)
  }

  /** Splitting loses nothing: gluing the pieces back gives the original text. */
  lemma {:induction false} JoinSplit(s: string, sep: char)
    ensures Join(Split(s, sep), sep) == s
    decreases |s|
  {
    if s != [] {
      JoinSplit(s[1..], sep);
      var rest := Split(s[1..], sep);
      if s[0] == sep {
        assert ([[]] + rest)[1..] == rest;
      } else if |rest| > 1 {
        assert ([[s[0]] + rest[0]] + rest[1..])[1..] == rest[1..];
      }
    }
  }

  lemma {:induction false} SplitPrefix(p: string, t: string, sep: char)
    requires sep !in p
    ensures Split(p + [sep] + t, sep) == [p] + Split(t, sep)
    decreases |p|
  {
    if p == [] {
      assert p + [sep] + t == [sep] + t;
      assert ([sep] + t)[1..] == t;
    } else {
      SplitPrefix(p[1..], t, sep);
      assert (p + [sep] + t)[1..] == p[1..] + [sep] + t;
      assert [p[0]] + p[1..] == p;
    }
  }

  lemma {:induction false} SplitPiece(p: string, sep: char)
    requires sep !in p
    ensures Split(p, sep) == [p]
    decreases |p|
  {
    if p != [] {
      SplitPiece(p[1..], sep);
      assert [p[0]] + p[1..] == p;
    }
  }

  /** Splitting recovers the pieces that were joined, when no piece holds the separator. */
  lemma {:induction false} SplitJoin(pieces: seq<string>, sep: char)
    requires |pieces| >= 1
    requires forall p :: p in pieces ==> sep !in p
    ensures Split(Join(pieces, sep), sep) == pieces
    decreases |pieces|
  {
    if |pieces| == 1 {
      SplitPiece(pieces[0], sep);
    } else {
      assert pieces[0] in pieces;
      assert forall p :: p in pieces[1..] ==> p in pieces;
      SplitJoin(pieces[1..], sep);
      SplitPrefix(pieces[0], Join(pieces[1..], sep), sep);
      assert [pieces[0]] + pieces[1..] == pieces;
    }
  }

  // ---------------------------------------------------------------------------
  // The tables the aggregation reads and the rows it returns
  // ---------------------------------------------------------------------------

  /** A row of the student roll-state table: the state a student had on one roll. */
  datatype StudentRollState = StudentRollState(id: int, studentId: StudentId, rollId: RollId, state: string)

  /** One result row of the aggregation: a student and its number of incidents. */
  datatype IncidentRow = IncidentRow(studentId: StudentId, incidentCount: nat)

  /** The WHERE clause: the accepted state labels and the window start. */
  datatype Criteria = Criteria(states: seq<string>, windowStart: Time)

  function Where(rollStates: string, windowStart: Time): Criteria
  {
    Criteria(Split(rollStates, StateSeparator), windowStart)
  }

  /**
   * A roll state survives the inner join with the roll table and the WHERE
   * clause. The roll table maps each roll id to its `completed_at`.
   */
  predicate Counted(o: StudentRollState, rolls: map<RollId, Time>, where: Criteria)
  {
    o.rollId in rolls && o.state in where.states && rolls[o.rollId] >= where.windowStart
  }

  /** COUNT(*) of the rows of student `sid` that survive the join and the WHERE clause. */
  function IncidentCount(outcomes: seq<StudentRollState>, rolls: map<RollId, Time>, where: Criteria, sid: StudentId): (count: nat)
    ensures count <= |outcomes|
  {
    if outcomes == [] then 0
    else
      var o := outcomes[|outcomes| - 1];
      IncidentCount(outcomes[..|outcomes| - 1], rolls, where, sid)
        + (if o.studentId == sid && Counted(o, rolls, where) then 1 else 0)
  }

  /** The positions of the rows of student `sid` that are counted. */
  function CountedIndices(outcomes: seq<StudentRollState>, rolls: map<RollId, Time>, where: Criteria, sid: StudentId): set<int>
  {
    set i | 0 <= i < |outcomes| && outcomes[i].studentId == sid && Counted(outcomes[i], rolls, where)
  }

  /** IncidentCount is the number of counted rows of that student. */
  lemma {:induction false} IncidentCountIsCardinality(outcomes: seq<StudentRollState>, rolls: map<RollId, Time>, where: Criteria, sid: StudentId)
    ensures IncidentCount(outcomes, rolls, where, sid) == |CountedIndices(outcomes, rolls, where, sid)|
  {
    if outcomes != [] {
      var n := |outcomes| - 1;
      var prefix := outcomes[..n];
      IncidentCountIsCardinality(prefix, rolls, where, sid);
      var before := CountedIndices(prefix, rolls, where, sid);
      var after := CountedIndices(outcomes, rolls, where, sid);
      assert n !in before;
      if outcomes[n].studentId == sid && Counted(outcomes[n], rolls, where) {
        assert after == before + {n};
      } else {
        assert after == before;
      }
    }
  }

  /** Adding rows to the table never lowers a count: the counts of two tables add up. */
  lemma {:induction false} IncidentCountAppend(a: seq<StudentRollState>, b: seq<StudentRollState>, rolls: map<RollId, Time>, where: Criteria, sid: StudentId)
    ensures IncidentCount(a + b, rolls, where, sid) == IncidentCount(a, rolls, where, sid) + IncidentCount(b, rolls, where, sid)
    decreases |b|
  {
    if b == [] {
      assert a + b == a;
    } else {
      var n := |b| - 1;
      assert (a + b)[..|a + b| - 1] == a + b[..n];
      IncidentCountAppend(a, b[..n], rolls, where, sid);
    }
  }

  // ---------------------------------------------------------------------------
  // GROUP BY student_id ... HAVING count <ltmt> incidents
  // ---------------------------------------------------------------------------

  predicate NoDuplicates(ids: seq<StudentId>)
  {
    forall i, j :: 0 <= i < j < |ids| ==> ids[i] != ids[j]
  }

  predicate NoDuplicateStudents(rows: seq<IncidentRow>)
  {
    forall i, j :: 0 <= i < j < |rows| ==> rows[i].studentId != rows[j].studentId
  }

  function StudentsOf(rows: seq<IncidentRow>): set<StudentId>
  {
    set r | r in rows :: r.studentId
  }

  /** The groups GROUP BY forms: each student with a counted row, once, in order of first appearance. */
  function CountedStudents(outcomes: seq<StudentRollState>, rolls: map<RollId, Time>, where: Criteria): (ids: seq<StudentId>)
    ensures NoDuplicates(ids)
    ensures forall sid :: sid in ids <==> IncidentCount(outcomes, rolls, where, sid) > 0
  {
    if outcomes == [] then []
    else
      var prefix := CountedStudents(outcomes[..|outcomes| - 1], rolls, where);
      var o := outcomes[|outcomes| - 1];
      if Counted(o, rolls, where) && o.studentId !in prefix then prefix + [o.studentId] else prefix
  }

  /** One row per group with its count. */
  function Tally(ids: seq<StudentId>, outcomes: seq<StudentRollState>, rolls: map<RollId, Time>, where: Criteria): seq<IncidentRow>
  {
    seq(|ids|, i requires 0 <= i < |ids| => IncidentRow(ids[i], IncidentCount(outcomes, rolls, where, ids[i])))
  }

  /** The HAVING filter. */
  function Having(rows: seq<IncidentRow>, op: Ltmt, incidents: int): (kept: seq<IncidentRow>)
    ensures forall r :: r in kept <==> r in rows && Holds(op, r.incidentCount, incidents)
    ensures NoDuplicateStudents(rows) ==> NoDuplicateStudents(kept)
  {
    if rows == [] then []
    else
      var rest := Having(rows[1..], op, incidents);
      assert forall r :: r in rows[1..] ==> r in rows;
      if Holds(op, rows[0].incidentCount, incidents) then [rows[0]] + rest else rest
  }

  /** getStudentRolls: the aggregation as a whole; StudentRollsSpec states what it returns. */
  function StudentRolls(outcomes: seq<StudentRollState>, rolls: map<RollId, Time>, windowStart: Time,
                        rollStates: string, op: Ltmt, incidents: int): seq<IncidentRow>
  {
    var where := Where(rollStates, windowStart);
    Having(Tally(CountedStudents(outcomes, rolls, where), outcomes, rolls, where), op, incidents)
  }

  /**
   * getStudentRolls returns each student at most once, with the number of its
   * counted roll states, and lists a student iff that number is positive and
   * satisfies `count <ltmt> incidents`.
   */
  lemma StudentRollsSpec(outcomes: seq<StudentRollState>, rolls: map<RollId, Time>, windowStart: Time,
                         rollStates: string, op: Ltmt, incidents: int)
    ensures var rows := StudentRolls(outcomes, rolls, windowStart, rollStates, op, incidents);
      && NoDuplicateStudents(rows)
      && (forall r :: r in rows ==>
            r.incidentCount == IncidentCount(outcomes, rolls, Where(rollStates, windowStart), r.studentId)
            && Holds(op, r.incidentCount, incidents))
      && (forall sid :: sid in StudentsOf(rows) <==>
            IncidentCount(outcomes, rolls, Where(rollStates, windowStart), sid) > 0
            && Holds(op, IncidentCount(outcomes, rolls, Where(rollStates, windowStart), sid), incidents))
  {
    var where := Where(rollStates, windowStart);
    var ids := CountedStudents(outcomes, rolls, where);
    var tally := Tally(ids, outcomes, rolls, where);
    var rows := Having(tally, op, incidents);
    assert forall r :: r in tally ==> exists i :: 0 <= i < |ids| && r == tally[i];
    forall sid | IncidentCount(outcomes, rolls, where, sid) > 0 && Holds(op, IncidentCount(outcomes, rolls, where, sid), incidents)
      ensures sid in StudentsOf(rows)
    {
      var i :| 0 <= i < |ids| && ids[i] == sid;
      assert tally[i] in rows;
    }
  }

  /**
   * Two WHERE clauses that accept the same rows of the table give every
   * student the same count and form the same groups.
   */
  lemma {:induction false} SameCountedSameCounts(outcomes: seq<StudentRollState>, rolls: map<RollId, Time>,
                                                 w1: Criteria, w2: Criteria, sid: StudentId)
    requires forall o :: o in outcomes ==> (Counted(o, rolls, w1) <==> Counted(o, rolls, w2))
    ensures IncidentCount(outcomes, rolls, w1, sid) == IncidentCount(outcomes, rolls, w2, sid)
    ensures CountedStudents(outcomes, rolls, w1) == CountedStudents(outcomes, rolls, w2)
  {
    if outcomes != [] {
      var prefix := outcomes[..|outcomes| - 1];
      assert outcomes[|outcomes| - 1] in outcomes;
      assert forall o :: o in prefix ==> o in outcomes;
      SameCountedSameCounts(prefix, rolls, w1, w2, sid);
    }
  }

  /**
   * Two window starts under which the same rows are counted give the same
   * result of getStudentRolls.
   */
  lemma SameCountedSameRows(outcomes: seq<StudentRollState>, rolls: map<RollId, Time>, start1: Time, start2: Time,
                            rollStates: string, op: Ltmt, incidents: int)
    requires forall o :: o in outcomes ==>
      (Counted(o, rolls, Where(rollStates, start1)) <==> Counted(o, rolls, Where(rollStates, start2)))
    ensures StudentRolls(outcomes, rolls, start1, rollStates, op, incidents)
         == StudentRolls(outcomes, rolls, start2, rollStates, op, incidents)
  {
    var w1 := Where(rollStates, start1);
    var w2 := Where(rollStates, start2);
    SameCountedSameCounts(outcomes, rolls, w1, w2, 0);
    var ids := CountedStudents(outcomes, rolls, w1);
    forall i | 0 <= i < |ids|
      ensures IncidentCount(outcomes, rolls, w1, ids[i]) == IncidentCount(outcomes, rolls, w2, ids[i])
    {
      SameCountedSameCounts(outcomes, rolls, w1, w2, ids[i]);
    }
    assert Tally(ids, outcomes, rolls, w1) == Tally(ids, outcomes, rolls, w2);
  }

  // ---------------------------------------------------------------------------
  // Properties of the evaluation
  // ---------------------------------------------------------------------------

  /**
   * A student appears iff its count satisfies the operator: with `>` a student
   * whose count equals the threshold is left out, with `>=` it is kept.
   */
  lemma ThresholdBoundary(outcomes: seq<StudentRollState>, rolls: map<RollId, Time>, windowStart: Time,
                          rollStates: string, incidents: int, sid: StudentId)
    requires incidents > 0
    requires IncidentCount(outcomes, rolls, Where(rollStates, windowStart), sid) == incidents
    ensures sid !in StudentsOf(StudentRolls(outcomes, rolls, windowStart, rollStates, Gt, incidents))
    ensures sid in StudentsOf(StudentRolls(outcomes, rolls, windowStart, rollStates, Ge, incidents))
    ensures sid in StudentsOf(StudentRolls(outcomes, rolls, windowStart, rollStates, Eq, incidents))
  {
    StudentRollsSpec(outcomes, rolls, windowStart, rollStates, Gt, incidents);
    StudentRollsSpec(outcomes, rolls, windowStart, rollStates, Ge, incidents);
    StudentRollsSpec(outcomes, rolls, windowStart, rollStates, Eq, incidents);
  }

  /**
   * GROUP BY only forms groups for students with a counted row, so a student
   * with no incident is never listed, even by a `<` or `<=` rule.
   */
  lemma UncountedStudentNeverListed(outcomes: seq<StudentRollState>, rolls: map<RollId, Time>, windowStart: Time,
                                    rollStates: string, op: Ltmt, incidents: int, sid: StudentId)
    requires forall o :: o in outcomes && o.studentId == sid ==> !Counted(o, rolls, Where(rollStates, windowStart))
    ensures sid !in StudentsOf(StudentRolls(outcomes, rolls, windowStart, rollStates, op, incidents))
  {
    var where := Where(rollStates, windowStart);
    StudentRollsSpec(outcomes, rolls, windowStart, rollStates, op, incidents);
    IncidentCountIsCardinality(outcomes, rolls, where, sid);
    assert CountedIndices(outcomes, rolls, where, sid) == {} by {
      forall i | 0 <= i < |outcomes| && outcomes[i].studentId == sid
        ensures !Counted(outcomes[i], rolls, where)
      {
        assert outcomes[i] in outcomes;
      }
    }
  }

  /**
   * The window is closed at its start: a roll state of a listed label on a roll
   * completed exactly at the window start adds one incident to its student.
   */
  lemma {:induction false} BoundaryRollCounted(outcomes: seq<StudentRollState>, rolls: map<RollId, Time>, windowStart: Time,
                                               rollStates: string, o: StudentRollState)
    requires o.rollId in rolls && rolls[o.rollId] == windowStart
    requires o.state in Split(rollStates, StateSeparator)
    ensures IncidentCount(outcomes + [o], rolls, Where(rollStates, windowStart), o.studentId)
         == IncidentCount(outcomes, rolls, Where(rollStates, windowStart), o.studentId) + 1
  {
    assert (outcomes + [o])[..|outcomes|] == outcomes;
  }

  /**
   * A roll state on a roll completed before the window start changes nothing
   * in the result, whatever its label and whatever the operator.
   */
  lemma {:induction false} StaleRollIgnored(outcomes: seq<StudentRollState>, rolls: map<RollId, Time>, windowStart: Time,
                                            rollStates: string, op: Ltmt, incidents: int, o: StudentRollState)
    requires o.rollId in rolls && rolls[o.rollId] < windowStart
    ensures StudentRolls(outcomes + [o], rolls, windowStart, rollStates, op, incidents)
         == StudentRolls(outcomes, rolls, windowStart, rollStates, op, incidents)
  {
    var where := Where(rollStates, windowStart);
    var longer := outcomes + [o];
    assert longer[..|longer| - 1] == outcomes;
    assert CountedStudents(longer, rolls, where) == CountedStudents(outcomes, rolls, where);
    var ids := CountedStudents(outcomes, rolls, where);
    assert Tally(ids, longer, rolls, where) == Tally(ids, outcomes, rolls, where);
  }
}
